=== FILE: README.md ===
# Kanban board state, modelled in Dafny

This project models the state logic of the `Kanban` React component of the
kanban-board application (`src/KanbanBoard/Kanban.jsx`). The component keeps
three pieces of state: `columns`, an object from column name to an ordered
list of project cards; `error`; and `searchQuery`. It changes them in three
ways, and computes a filtered view from them:

- **Load.** Fetched project records are normalised. Each record gets the id
  `title-index`, and its `developer` text is split on `", "`. The records
  are then grouped into columns by status, with `'Ready to start'` for a
  missing or empty status.
- **Drag end.** Dropping one card on another moves it within their shared
  column, as `arrayMove` does.
- **Search.** Typing in the search box sets the query.
- **Filtered view** (no state change). On every render each column is filtered to the cards
  whose lower-cased title includes the lower-cased query.

Modules:

- `Wrappers`: `Option` and `Result`.
- `Text`: ASCII lower-casing, `includes`, `split(', ')` with `join(', ')`,
  which undoes it, and the decimal rendering of an index.
- `Records`: normalisation of fetched records (`Normalize`).
- `Columns`: the board as an ordered key list plus a map, and the grouping
  `reduce`. The grouping is specified by `Grouped` and carried out by the
  loop in `Group`.
- `Reorder`: `arrayMove`, the `find`/`findIndex` lookups and the drag-end
  update `Reordered`.
- `Search`: the per-column filter and the filtered view.
- `Controller`: class `KanbanBoard`. It holds the three state variables and
  has the methods `Load`, `FetchFailed`, `DragEnd`, `SetQuery` and
  `Filtered`.

A JavaScript object's key order is the order in which its keys were first
inserted, so a board is a `Board(keys, cols)` in which `keys` lists the
domain of `cols` once each. The key order matters for two reasons: the drag
handler takes the first column that holds an id, and the initial state lists
its six columns in a different order from the object the grouping starts
from.

Three behaviours of the code are worth stating:

- A status that is not one of the six canonical columns creates a new
  column after them. It is not folded into `'Ready to start'`.
- A record without a `developer` makes `split` throw, which turns the whole
  load into a failure carrying that error message. It does not become an
  empty developer list.
- A failed load sets the error and leaves the columns as they were.

## Model

| member | source | states |
|---|---|---|
| Text.Lower | src/KanbanBoard/Kanban.jsx:107 | ASCII `toLowerCase`: same length, each upper-case letter becomes its lower-case partner (code point + 32), every other character unchanged, so no upper-case letter is left |
| Text.Upper | src/KanbanBoard/Kanban.jsx:107 | the mirror-image ASCII upper-casing, used to state that the match ignores case: each lower-case letter becomes its upper-case partner, every other character unchanged |
| Text.UpperSameUpToCase | src/KanbanBoard/Kanban.jsx:107 | upper-casing changes nothing but letter case |
| Text.LowerEqualIff | src/KanbanBoard/Kanban.jsx:107 | two texts lower-case to the same string if and only if they are equal up to ASCII letter case |
| Text.LowerIdempotent | src/KanbanBoard/Kanban.jsx:107 | lower-casing an already lower-cased string changes nothing |
| Text.Contains | src/KanbanBoard/Kanban.jsx:107 | `includes` as "occurs at some position"; a string never includes a longer one; `ContainsEmpty` gives the empty case |
| Text.Split | src/KanbanBoard/Kanban.jsx:50 | `split(', ')` always yields at least one piece; its round trip and cut points are in `JoinSplit` and `SplitPiecesHaveNoSeparator` |
| Text.JoinSplit | src/KanbanBoard/Kanban.jsx:50 | joining the pieces of `split(', ')` with `", "` gives back the original developer text |
| Text.SplitPiecesHaveNoSeparator | src/KanbanBoard/Kanban.jsx:50 | no piece of the split contains `", "`, so the text is cut at every separator and nowhere else |
| Text.NatToString | src/KanbanBoard/Kanban.jsx:49 | the rendering of the index in the id template is a non-empty string of decimal digits |
| Text.DigitsValueOfNatToString | src/KanbanBoard/Kanban.jsx:49 | reading the rendered index back as a decimal number gives the index |
| Text.NatToStringInjective | src/KanbanBoard/Kanban.jsx:49 | different indices render differently |
| Text.ContainsEmpty | src/KanbanBoard/Kanban.jsx:107 | every string `includes` the empty string |
| Records.NormalizeFrom | src/KanbanBoard/Kanban.jsx:47-51 | the `map` fails, with the `split`-of-undefined message, exactly when some record has no developer; otherwise it keeps length and order and item `i` carries `title-(base+i)`, the same title, status and type, and the split developer list |
| Records.Normalize | src/KanbanBoard/Kanban.jsx:47-51 | the `map` over the whole batch fails, with the `split`-of-undefined message, exactly when some record has no developer, and otherwise yields one item per record; per-item facts are in `NormalizeProperties` |
| Records.ItemId | src/KanbanBoard/Kanban.jsx:49 | the id template: the title, then `-`, then only decimal digits (the index); distinctness is in `ItemIdsDiffer` |
| Records.ItemIdsDiffer | src/KanbanBoard/Kanban.jsx:49 | ids built from different indices differ whatever the two titles are, because the text after the last `-` is the index |
| Records.NormalizeProperties | src/KanbanBoard/Kanban.jsx:47-51 | a successful normalisation keeps length and order, names item `i` `title-i`, splits its developers on `", "`, and gives pairwise distinct ids |
| Columns.InitialBoard | src/KanbanBoard/Kanban.jsx:23-30 | the initial columns are the six canonical keys in their declared order, all empty, forming a well-formed board |
| Columns.SeedBoard | src/KanbanBoard/Kanban.jsx:58-65 | the grouping's seed is the same six empty columns with `'In Progress'` first |
| Columns.StatusKey | src/KanbanBoard/Kanban.jsx:54 | the column an item goes to is never the empty (falsy) name |
| Columns.Place | src/KanbanBoard/Kanban.jsx:54-56 | one reduce step keeps the board consistent, keeps the key list or appends the item's status to it, and leaves the status among the keys |
| Columns.Grouped | src/KanbanBoard/Kanban.jsx:53-65 | the grouping always yields a well-formed board holding all six canonical keys |
| Columns.PushIsPlace | src/KanbanBoard/Kanban.jsx:55-56 | creating an empty list for an unseen status and then pushing the item performs exactly one reduce step: the item is appended to its status's column, and the status becomes a new last key when it is unseen |
| Columns.GroupedStep | src/KanbanBoard/Kanban.jsx:53-57 | grouping one more item is one more reduce step on the grouping of the prefix |
| Columns.Group | src/KanbanBoard/Kanban.jsx:53-65 | the accumulator loop, which creates a key on the first sight of a status and pushes onto that key's list, yields exactly `Grouped(items)` |
| Columns.SelectMembers | src/KanbanBoard/Kanban.jsx:53-57 | the reference selection for column `k` holds exactly the items whose status key is `k` |
| Columns.SelectAbsent | src/KanbanBoard/Kanban.jsx:55 | a status no item has selects nothing, so a newly created column starts with only the item that created it |
| Columns.GroupedCoversStatuses | src/KanbanBoard/Kanban.jsx:54-55 | every item's status, or `'Ready to start'` when missing or empty, is a key of the grouped board |
| Columns.GroupedColumns | src/KanbanBoard/Kanban.jsx:53-57 | each grouped column holds exactly the items whose status names it, in input order |
| Columns.GroupedKeyOrder | src/KanbanBoard/Kanban.jsx:53-65 | the grouped keys are the six seed keys followed by one key per distinct non-canonical status, in order of first appearance, and each extra key is the status of some item |
| Columns.GroupedKeepsEveryItem | src/KanbanBoard/Kanban.jsx:53-65 | the columns together hold exactly the input items as a multiset, so the total count equals the input count |
| Reorder.ArrayMove | src/KanbanBoard/Kanban.jsx:95 | `arrayMove` returns a permutation of its input with the same length |
| Reorder.ArrayMoveAt | src/KanbanBoard/Kanban.jsx:95 | `s[from]` lands at `to`; the elements from just after `from` up to `to`, or from `to` up to just before `from`, shift by one towards `from`; all others keep their positions |
| Reorder.ArrayMoveSame | src/KanbanBoard/Kanban.jsx:95 | moving an element onto its own index is the identity |
| Reorder.ArrayMoveLastToFront | src/KanbanBoard/Kanban.jsx:95 | `[X,Y,Z]` moved from 2 to 0 is `[Z,X,Y]` |
| Reorder.ArrayMoveBack | src/KanbanBoard/Kanban.jsx:95 | moving back from `to` to `from` undoes a move |
| Reorder.IndexOfId | src/KanbanBoard/Kanban.jsx:91-92 | `findIndex` returns the first index holding the id, and -1 exactly when no item has it |
| Reorder.FirstColumnWith | src/KanbanBoard/Kanban.jsx:82-87 | the key-order `find` returns the first column holding the id, and none exactly when no column holds it |
| Reorder.ColumnOf | src/KanbanBoard/Kanban.jsx:82-87 | `Object.keys(columns).find(...)` finds a column exactly when some column holds the id, and the column it returns holds the id and is the first such key in key order |
| Reorder.Reordered | src/KanbanBoard/Kanban.jsx:78-103 | a drop keeps the key list and the board's consistency, and leaves every column a permutation of itself |
| Reorder.ReorderedNoOp | src/KanbanBoard/Kanban.jsx:81-94 | a drop changes nothing when the ids are equal, when either id is in no column, or when they are first found in different columns |
| Reorder.ReorderedSameColumn | src/KanbanBoard/Kanban.jsx:89-99 | when both ids are first found in one column, both `findIndex` results are valid and the drop replaces only that column with its `arrayMove` |
| Reorder.ReorderedMoves | src/KanbanBoard/Kanban.jsx:89-99 | on such a drop the active item moves to the over item's index, the column keeps its length and multiset, and the keys and every other column are identical |
| Reorder.ReorderedChangesIff | src/KanbanBoard/Kanban.jsx:81-99 | a drop changes the board if and only if the ids differ and are first found in the same column |
| Search.Matches | src/KanbanBoard/Kanban.jsx:107 | the filter predicate (lower-cased title includes lower-cased query); a query longer than the title never matches; case-insensitivity in `MatchesIgnoresCase`, further facts in `EmptyQueryMatches` and `MatchIgnoresCase` |
| Search.KeepMatching | src/KanbanBoard/Kanban.jsx:106-108 | a filtered column is an order-preserving subsequence of the column that keeps every copy of each matching item and no copy of any other item |
| Search.FilterBoard | src/KanbanBoard/Kanban.jsx:105-110 | the filtered view has exactly the keys of the columns, in the same order, and each of its columns is the filtered column |
| Search.EmptyQueryMatches | src/KanbanBoard/Kanban.jsx:107 | the empty query matches every title |
| Search.KeepMatchingEmptyQuery | src/KanbanBoard/Kanban.jsx:106-108 | filtering a column with the empty query gives the column back |
| Search.FilterEmptyQuery | src/KanbanBoard/Kanban.jsx:105-110 | with an empty query the filtered view equals the columns |
| Search.KeepMatchingNone | src/KanbanBoard/Kanban.jsx:106-108 | a column with no matching title filters to the empty list |
| Search.FilterNoMatch | src/KanbanBoard/Kanban.jsx:105-110 | a query that matches no title leaves every column of the view empty |
| Search.MatchesIgnoresCase | src/KanbanBoard/Kanban.jsx:107 | changing the letter case of the title or of the query, anywhere, never changes whether the title matches |
| Search.MatchesUpperQuery | src/KanbanBoard/Kanban.jsx:107 | an upper-cased query matches exactly the titles the query matches |
| Search.MatchIgnoresCase | src/KanbanBoard/Kanban.jsx:107 | a worked instance of case- and position-independence: `"bug"` matches the title `"Fix Login Bug"` |
| Controller.KanbanBoard.constructor | src/KanbanBoard/Kanban.jsx:21-30 | the component starts with the six empty columns, no error and an empty query |
| Controller.KanbanBoard.Load | src/KanbanBoard/Kanban.jsx:43-70 | a falsy `response` or a record without a developer sets the error and leaves the columns unchanged; otherwise the columns become the grouping of the normalised records and the error is cleared; the query is never touched and the board stays well-formed |
| Controller.KanbanBoard.FetchFailed | src/KanbanBoard/Kanban.jsx:69-70 | a rejected request stores the rejection's message as the error; the columns and the query are untouched |
| Controller.KanbanBoard.DragEnd | src/KanbanBoard/Kanban.jsx:78-103 | the columns become the reordered board with the same keys and stay well-formed; the error and the query are untouched |
| Controller.KanbanBoard.SetQuery | src/KanbanBoard/Kanban.jsx:126 | only the query changes, and the board stays well-formed |
| Controller.KanbanBoard.Filtered | src/KanbanBoard/Kanban.jsx:105-110 | the key-by-key accumulator loop builds exactly the filtered view, with the columns' keys in order, and changes no state |

## Left out

- The HTTP request and the `useEffect` lifecycle (`Kanban.jsx` lines 39-42 and 71-76) are network I/O. A load is modelled only by its outcome: the truthiness of the `response` flag and the list of records.
- Controller.KanbanBoard.Load: the message for a record without a developer is fixed to the wording of the V8 engine's `TypeError` for an `undefined` field. Other engines word it differently, and a `null` developer (which a record cannot express here) gives a different message. A request that rejects outright is the separate transition `FetchFailed`, which takes the rejection's message as a parameter.
- A `data` field that is not a list, and a `title` or `developer` that is not a string, are not modelled. Records are typed.
- Fields of a record other than `title`, `status`, `developer` and `type` are not modelled. The spread copies them unchanged and no logic reads them.
- Cancellation of a late fetch result is not modelled. The code has no such guard, and a load simply replaces the state.
- The gesture handling of the drag-and-drop library (sensors, collision detection, `DndContext`, `SortableContext`) is not modelled. A drop arrives as the two resolved ids.
- `DragEnd` does not model the crash when a card is dropped over nothing. Line 81 reads `over.id` before it checks that `over` is non-null. Ids are plain strings here, and "not found" means absent from every column.
- `Text.Lower` maps ASCII `A`-`Z` only. Unicode case mapping of `toLowerCase` is not modelled.
- `Columns.Place` keeps keys in insertion order. JavaScript lists integer-like keys (a status such as `"2"`) first in ascending numeric order; that ordering is not modelled.
- `Columns.Place` treats every status as its own key. A status that names an inherited property of JavaScript objects (such as `"toString"`) would make `!acc[status]` false; this is not modelled.
- `Reorder.ArrayMove` is defined here as "remove at `from`, insert at `to`". The library function is not part of this model.
- Rendering and the column colour table (lines 112-171), and the `console.error` call in the catch (line 71), are not modelled.
- `src/KanbanBoard/KanbanType.jsx` is not part of this model. It is a presentational card with no state logic.

=== FILE: columns.dfy ===
/**
 * The board's columns and the grouping of normalised items into them.
 *
 * A board is a JavaScript object from column name to an ordered list of
 * items. Its key order matters (the drag handler takes the first column that
 * holds an id, and columns render in that order), so a board is an ordered
 * key list together with a map.
 */
module Columns {
  import opened Wrappers
  import opened Records

  datatype Board = Board(keys: seq<string>, cols: map<string, seq<Item>>)

  /** Where a record with a missing or empty status goes. */
  const DefaultStatus: string := "Ready to start"

  /** The key order of the board before any load. */
  const InitialKeys: seq<string> :=
    ["Ready to start", "In Progress", "Waiting for review", "Done", "Stuck", "Pending Deploy"]

  /** The key order of the object the grouping starts from. */
  const SeedKeys: seq<string> :=
    ["In Progress", "Ready to start", "Waiting for review", "Done", "Stuck", "Pending Deploy"]

  predicate Distinct(s: seq<string>)
  {
    forall i, j :: 0 <= i < j < |s| ==> s[i] != s[j]
  }

  /** `keys` lists the keys of `cols`, each once, as `Object.keys` does. */
  predicate Consistent(b: Board)
  {
    && Distinct(b.keys)
    && (forall k :: k in b.keys ==> k in b.cols)
    && (forall k :: k in b.cols ==> k in b.keys)
  }

  /**
   * The board invariant: an object whose keys include the six canonical
   * column names and never the empty (falsy) name.
   */
  predicate WellFormed(b: Board)
  {
    && Consistent(b)
    && (forall k :: k in InitialKeys ==> k in b.keys)
    && "" !in b.keys
  }

  /** An object with an empty list under each of `keys`, in that order. */
  function EmptyColumns(keys: seq<string>): (b: Board)
    requires Distinct(keys)
    ensures Consistent(b) && b.keys == keys
    ensures forall k :: k in b.cols ==> b.cols[k] == []
  {
    Board(keys, map k | k in keys :: [])
  }

  /** The state before any data arrives: six empty columns. */
  function InitialBoard(): (b: Board)
    ensures WellFormed(b) && b.keys == InitialKeys
    ensures forall k :: k in b.cols ==> b.cols[k] == []
  {
    EmptyColumns(InitialKeys)
  }

  /** The seed of the grouping: the same six empty columns, in another order. */
  function SeedBoard(): (b: Board)
    ensures WellFormed(b) && b.keys == SeedKeys
    ensures forall k :: k in b.cols ==> b.cols[k] == []
  {
    EmptyColumns(SeedKeys)
  }

  /** `project.status || 'Ready to start'`. */
  function StatusKey(x: Item): (s: string)
    ensures s != ""
  {
    if x.status.Some? && x.status.value != "" then x.status.value else DefaultStatus
  }

  /**
   * One step of the grouping `reduce`: the column named by the item's status
   * gets the item at its end; a status no column has yet becomes a new last key.
   */
  function Place(b: Board, x: Item): (r: Board)
    requires Consistent(b)
    ensures Consistent(r)
    ensures r.keys == b.keys || r.keys == b.keys + [StatusKey(x)]
    ensures StatusKey(x) in r.keys
  {
    var s := StatusKey(x);
    if s in b.cols then Board(b.keys, b.cols[s := b.cols[s] + [x]])
    else Board(b.keys + [s], b.cols[s := [x]])
  }

  /** The board the grouping `reduce` builds from `items`. */
  function Grouped(items: seq<Item>): (b: Board)
    ensures WellFormed(b)
    decreases |items|
  {
    if |items| == 0 then SeedBoard()
    else Place(Grouped(items[..|items| - 1]), items[|items| - 1])
  }

  /** A reduce step appends the item's status to the keys exactly when it is new. */
  lemma PlaceKeys(b: Board, x: Item)
    requires Consistent(b)
    ensures Place(b, x).keys == if StatusKey(x) in b.keys then b.keys else b.keys + [StatusKey(x)]
  {
  }

  /**
   * The loop body of the grouping, `if (!acc[status]) acc[status] = []`
   * followed by the push, performs one reduce step.
   */
  lemma PushIsPlace(b: Board, x: Item, keys: seq<string>, acc: map<string, seq<Item>>)
    requires Consistent(b)
    requires keys == if StatusKey(x) in b.cols then b.keys else b.keys + [StatusKey(x)]
    requires acc == if StatusKey(x) in b.cols then b.cols else b.cols[StatusKey(x) := []]
    ensures StatusKey(x) in acc
    ensures Board(keys, acc[StatusKey(x) := acc[StatusKey(x)] + [x]]) == Place(b, x)
  {
    var s := StatusKey(x);
    if s !in b.cols {
      assert acc[s] + [x] == [x];
      assert acc[s := acc[s] + [x]] == b.cols[s := [x]];
    }
  }

  /** The grouping of one more item is one more step of the reduce. */
  lemma GroupedStep(items: seq<Item>, i: int)
    requires 0 <= i < |items|
    ensures Grouped(items[..i + 1]) == Place(Grouped(items[..i]), items[i])
  {
    assert items[..i + 1][..i] == items[..i];
  }

  /**
   * The grouping `reduce` as the source runs it: an accumulator object that
   * gets a new key the first time a status is seen and an item pushed onto
   * the list under that status.
   */
  method Group(items: seq<Item>) returns (b: Board)
    ensures b == Grouped(items)
  {
    var keys := SeedKeys;
    var acc: map<string, seq<Item>> := map k | k in SeedKeys :: [];
    for i := 0 to |items|
      invariant Board(keys, acc) == Grouped(items[..i])
    {
      var project := items[i];
      var status := StatusKey(project);
      ghost var before := Board(keys, acc);
      if status !in acc {
        keys := keys + [status];
        acc := acc[status := []];
      }
      PushIsPlace(before, project, keys, acc);
      GroupedStep(items, i);
      acc := acc[status := acc[status] + [project]];
    }
    assert items[..|items|] == items;
    b := Board(keys, acc);
  }

  // ---------------------------------------------------------------------
  // What the grouping produces
  // ---------------------------------------------------------------------

  /** The items of `items` whose status names column `k`, in input order. */
  function Select(items: seq<Item>, k: string): seq<Item>
    decreases |items|
  {
    if |items| == 0 then []
    else
      var last := items[|items| - 1];
      Select(items[..|items| - 1], k) + (if StatusKey(last) == k then [last] else [])
  }

  /** A status that no item has selects nothing. */
  lemma {:induction false} SelectAbsent(items: seq<Item>, k: string)
    requires forall i :: 0 <= i < |items| ==> StatusKey(items[i]) != k
    ensures Select(items, k) == []
    decreases |items|
  {
    if |items| > 0 {
      SelectAbsent(items[..|items| - 1], k);
    }
  }

  /** A selection holds exactly the items whose status key is `k`. */
  lemma {:induction false} SelectMembers(items: seq<Item>, k: string)
    ensures forall x :: x in Select(items, k) <==> x in items && StatusKey(x) == k
    decreases |items|
  {
    if |items| > 0 {
      var pre := items[..|items| - 1];
      SelectMembers(pre, k);
      assert items == pre + [items[|items| - 1]];
    }
  }

  /** Every item's status names a column of the grouped board. */
  lemma {:induction false} GroupedCoversStatuses(items: seq<Item>)
    ensures forall i :: 0 <= i < |items| ==> StatusKey(items[i]) in Grouped(items).keys
    decreases |items|
  {
    if |items| > 0 {
      var pre := items[..|items| - 1];
      GroupedCoversStatuses(pre);
      var b := Grouped(pre);
      assert Grouped(items) == Place(b, items[|items| - 1]);
      forall i | 0 <= i < |items| - 1
        ensures StatusKey(items[i]) in Grouped(items).keys
      {
        assert items[i] == pre[i];
      }
    }
  }

  /**
   * Each column of the grouped board holds exactly the items whose status
   * names it (a missing or empty status naming "Ready to start"), in the
   * order they came in.
   */
  lemma {:induction false} GroupedColumns(items: seq<Item>)
    ensures forall k :: k in Grouped(items).cols ==> Grouped(items).cols[k] == Select(items, k)
    decreases |items|
  {
    if |items| > 0 {
      var pre, x := items[..|items| - 1], items[|items| - 1];
      GroupedColumns(pre);
      GroupedCoversStatuses(pre);
      var b := Grouped(pre);
      var r := Place(b, x);
      assert Grouped(items) == r;
      var s := StatusKey(x);
      forall k | k in r.cols
        ensures r.cols[k] == Select(items, k)
      {
        assert Select(items, k) == Select(pre, k) + (if s == k then [x] else []);
        if k == s && s !in b.cols {
          SelectAbsent(pre, s);
        }
      }
    }
  }

  /** Some item before position `j` has a status naming column `k`. */
  predicate AppearsBefore(items: seq<Item>, k: string, j: int)
  {
    exists i :: 0 <= i < j && i < |items| && StatusKey(items[i]) == k
  }

  /** The statuses of the first `n` items all name columns in `ks`. */
  predicate Covers(items: seq<Item>, n: int, ks: seq<string>)
    requires n <= |items|
  {
    forall i :: 0 <= i < n ==> StatusKey(items[i]) in ks
  }

  /** Every key after the six seed keys is the status of one of the first `n` items. */
  predicate ExtrasAppear(items: seq<Item>, n: int, ks: seq<string>)
  {
    forall p :: 6 <= p < |ks| ==> AppearsBefore(items, ks[p], n)
  }

  /**
   * After the six seed keys, every key of `ks` is the status of one of the
   * first `n` items, and the keys stand in the order their statuses first
   * appear: wherever a later key shows up, each earlier one has shown up before.
   */
  predicate ExtrasInFirstAppearanceOrder(items: seq<Item>, n: int, ks: seq<string>)
    requires n <= |items|
  {
    && |ks| >= 6 && ks[..6] == SeedKeys
    && ExtrasAppear(items, n, ks)
    && (forall p, q, j ::
          (6 <= p < q < |ks| && 0 <= j < n && StatusKey(items[j]) == ks[q])
          ==> AppearsBefore(items, ks[p], j))
  }

  lemma AppearsBeforeLater(items: seq<Item>, k: string, j: int, j': int)
    requires AppearsBefore(items, k, j) && j <= j'
    ensures AppearsBefore(items, k, j')
  {
    var i :| 0 <= i < j && i < |items| && StatusKey(items[i]) == k;
    assert 0 <= i < j' && i < |items| && StatusKey(items[i]) == k;
  }

  /** Item `n - 1` has a status that already names a column: the keys stay. */
  lemma KnownStatusKeepsKeyOrder(items: seq<Item>, n: int, ks: seq<string>)
    requires 0 < n <= |items| && StatusKey(items[n - 1]) in ks
    requires Covers(items, n - 1, ks)
    requires ExtrasInFirstAppearanceOrder(items, n - 1, ks)
    ensures Covers(items, n, ks)
    ensures ExtrasInFirstAppearanceOrder(items, n, ks)
  {
    forall p | 6 <= p < |ks|
      ensures AppearsBefore(items, ks[p], n)
    {
      AppearsBeforeLater(items, ks[p], n - 1, n);
    }
    forall p, q | 6 <= p < q < |ks| && StatusKey(items[n - 1]) == ks[q]
      ensures AppearsBefore(items, ks[p], n - 1)
    {
      // the key of item n - 1 already showed up at some j' < n - 1
      assert AppearsBefore(items, ks[q], n - 1);
      var j' :| 0 <= j' < n - 1 && j' < |items| && StatusKey(items[j']) == ks[q];
      AppearsBeforeLater(items, ks[p], j', n - 1);
    }
  }

  /** Item `n - 1` has a new status: it becomes the last key. */
  lemma NewStatusKeepsKeyOrder(items: seq<Item>, n: int, ks: seq<string>)
    requires 0 < n <= |items| && StatusKey(items[n - 1]) !in ks
    requires Covers(items, n - 1, ks)
    requires ExtrasInFirstAppearanceOrder(items, n - 1, ks)
    ensures Covers(items, n, ks + [StatusKey(items[n - 1])])
    ensures ExtrasInFirstAppearanceOrder(items, n, ks + [StatusKey(items[n - 1])])
  {
    var ks' := ks + [StatusKey(items[n - 1])];
    assert ks'[..6] == SeedKeys by {
      assert ks'[..|ks|] == ks;
    }
    forall p | 6 <= p < |ks'|
      ensures AppearsBefore(items, ks'[p], n)
    {
      if p < |ks| {
        assert ks'[p] == ks[p];
        AppearsBeforeLater(items, ks[p], n - 1, n);
      } else {
        assert StatusKey(items[n - 1]) == ks'[p];
      }
    }
    forall p, q, j | 6 <= p < q < |ks'| && 0 <= j < n && StatusKey(items[j]) == ks'[q]
      ensures AppearsBefore(items, ks'[p], j)
    {
      assert ks'[p] == ks[p];
      if q < |ks| {
        assert ks'[q] == ks[q];
        if j == n - 1 {
          // the new status is not among the old keys
          assert false;
        }
      } else if j < n - 1 {
        // the new status is not the status of an earlier item
        assert false;
      }
    }
  }

  /** One more item keeps the key-order facts, whether its status is known or new. */
  lemma KeyOrderStep(items: seq<Item>, n: int, ks: seq<string>, ks': seq<string>)
    requires 0 < n <= |items|
    requires Covers(items, n - 1, ks) && ExtrasInFirstAppearanceOrder(items, n - 1, ks)
    requires ks' == if StatusKey(items[n - 1]) in ks then ks else ks + [StatusKey(items[n - 1])]
    ensures Covers(items, n, ks') && ExtrasInFirstAppearanceOrder(items, n, ks')
  {
    if StatusKey(items[n - 1]) in ks {
      KnownStatusKeepsKeyOrder(items, n, ks);
    } else {
      NewStatusKeepsKeyOrder(items, n, ks);
    }
  }

  lemma {:induction false} GroupedPrefixKeyOrder(items: seq<Item>, n: nat)
    requires n <= |items|
    ensures Covers(items, n, Grouped(items[..n]).keys)
    ensures ExtrasInFirstAppearanceOrder(items, n, Grouped(items[..n]).keys)
    decreases n
  {
    if n > 0 {
      GroupedPrefixKeyOrder(items, n - 1);
      var ks := Grouped(items[..n - 1]).keys;
      var ks' := Grouped(items[..n]).keys;
      assert ks' == if StatusKey(items[n - 1]) in ks then ks else ks + [StatusKey(items[n - 1])] by {
        GroupedStep(items, n - 1);
        PlaceKeys(Grouped(items[..n - 1]), items[n - 1]);
      }
      KeyOrderStep(items, n, ks, ks');
    }
  }

  /**
   * Grouping always yields the six seed columns first, then one extra column
   * for each other status, in the order those statuses first appear, and a
   * column for every item's status.
   */
  lemma GroupedKeyOrder(items: seq<Item>)
    ensures Covers(items, |items|, Grouped(items).keys)
    ensures ExtrasInFirstAppearanceOrder(items, |items|, Grouped(items).keys)
  {
    GroupedPrefixKeyOrder(items, |items|);
    assert items[..|items|] == items;
  }

  // ---------------------------------------------------------------------
  // Every item lands in exactly one column
  // ---------------------------------------------------------------------

  /** The items of the columns `keys`, column after column. */
  function Flatten(keys: seq<string>, cols: map<string, seq<Item>>): seq<Item>
    requires forall k :: k in keys ==> k in cols
    decreases |keys|
  {
    if |keys| == 0 then [] else Flatten(keys[..|keys| - 1], cols) + cols[keys[|keys| - 1]]
  }

  /** All items of a board, column by column in key order. */
  function AllItems(b: Board): seq<Item>
    requires Consistent(b)
  {
    Flatten(b.keys, b.cols)
  }

  lemma {:induction false} FlattenIgnores(keys: seq<string>, cols: map<string, seq<Item>>, s: string, v: seq<Item>)
    requires forall k :: k in keys ==> k in cols
    requires s !in keys
    ensures Flatten(keys, cols[s := v]) == Flatten(keys, cols)
    decreases |keys|
  {
    if |keys| > 0 {
      FlattenIgnores(keys[..|keys| - 1], cols, s, v);
    }
  }

  lemma {:induction false} FlattenPush(keys: seq<string>, cols: map<string, seq<Item>>, s: string, x: Item)
    requires forall k :: k in keys ==> k in cols
    requires Distinct(keys) && s in keys
    ensures multiset(Flatten(keys, cols[s := cols[s] + [x]])) == multiset(Flatten(keys, cols)) + multiset{x}
    decreases |keys|
  {
    var init, last := keys[..|keys| - 1], keys[|keys| - 1];
    var cols' := cols[s := cols[s] + [x]];
    if last == s {
      assert s !in init;
      FlattenIgnores(init, cols, s, cols[s] + [x]);
    } else {
      assert s in init;
      FlattenPush(init, cols, s, x);
    }
  }

  lemma {:induction false} FlattenEmpty(keys: seq<string>, cols: map<string, seq<Item>>)
    requires forall k :: k in keys ==> k in cols && cols[k] == []
    ensures Flatten(keys, cols) == []
    decreases |keys|
  {
    if |keys| > 0 {
      FlattenEmpty(keys[..|keys| - 1], cols);
    }
  }

  lemma MultisetInitLast(s: seq<Item>)
    requires |s| > 0
    ensures multiset(s) == multiset(s[..|s| - 1]) + multiset{s[|s| - 1]}
  {
    assert s == s[..|s| - 1] + [s[|s| - 1]];
  }

  /** One step of the grouping adds exactly the placed item to the board. */
  lemma PlaceAddsItem(b: Board, x: Item)
    requires Consistent(b)
    ensures multiset(AllItems(Place(b, x))) == multiset(AllItems(b)) + multiset{x}
  {
    var s := StatusKey(x);
    var r := Place(b, x);
    if s in b.cols {
      FlattenPush(b.keys, b.cols, s, x);
    } else {
      assert r.keys[..|r.keys| - 1] == b.keys;
      FlattenIgnores(b.keys, b.cols, s, [x]);
    }
  }

  /**
   * Grouping loses no item and duplicates none: the columns together hold
   * exactly the input items, so their lengths add up to the input's.
   */
  lemma {:induction false} GroupedKeepsEveryItem(items: seq<Item>)
    ensures multiset(AllItems(Grouped(items))) == multiset(items)
    ensures |AllItems(Grouped(items))| == |items|
    decreases |items|
  {
    if |items| == 0 {
      var b := SeedBoard();
      FlattenEmpty(b.keys, b.cols);
    } else {
      var pre, x := items[..|items| - 1], items[|items| - 1];
      GroupedKeepsEveryItem(pre);
      PlaceAddsItem(Grouped(pre), x);
      MultisetInitLast(items);
      var all := AllItems(Grouped(items));
      assert |all| == |multiset(all)|;
    }
  }
}

=== FILE: controller.dfy ===
/**
 * The board component's state and its transitions: the columns, the last
 * load error and the search text, updated by a load, a drop and typing in
 * the search box; the filtered view is computed from them on every render.
 */
module Controller {
  import opened Wrappers
  import opened Records
  import opened Columns
  import opened Reorder
  import opened Search

  /** The message thrown when the response's `response` flag is falsy. */
  const InvalidResponseError: string := "Invalid response format"

  class KanbanBoard {
    var columns: Board
    var error: Option<string>
    var searchQuery: string

    /** The columns always form a well-formed board. */
    ghost predicate Valid()
      reads this
    {
      WellFormed(columns)
    }

    /** The initial state: six empty columns, no error, an empty query. */
    constructor()
      ensures Valid()
      ensures columns == InitialBoard() && error == None && searchQuery == ""
    {
      columns := InitialBoard();
      error := None;
      searchQuery := "";
    }

    /**
     * The outcome of a fetch: `ok` is the truthiness of the response's
     * `response` flag and `records` its `data` list. A falsy flag or a record
     * that cannot be normalised sets the error and leaves the columns as they
     * were; otherwise the grouped records replace the columns wholesale and
     * the error is cleared. The search text is never touched.
     */
    method Load(ok: bool, records: seq<RawRecord>)
      requires Valid()
      modifies this
      ensures Valid()
      ensures searchQuery == old(searchQuery)
      ensures !ok ==> columns == old(columns) && error == Some(InvalidResponseError)
      ensures ok && Normalize(records).Failure? ==>
        columns == old(columns) && error == Some(Normalize(records).error)
      ensures ok && Normalize(records).Success? ==>
        columns == Grouped(Normalize(records).value) && error == None
    {
      if !ok {
        error := Some(InvalidResponseError);
        return;
      }
      match Normalize(records)
      case Failure(e) =>
        error := Some(e);
      case Success(items) =>
        var grouped := Group(items);
        columns := grouped;
        error := None;
    }

    /**
     * A fetch that rejects (a network or HTTP error): the catch stores the
     * rejection's message and the columns and the query stay as they were.
     */
    method FetchFailed(message: string)
      requires Valid()
      modifies this
      ensures Valid()
      ensures error == Some(message)
      ensures columns == old(columns) && searchQuery == old(searchQuery)
    {
      error := Some(message);
    }

    /**
     * `handleDragEnd` for a drop of `activeId` on `overId`: the columns become
     * the reordered board; error and search text stay as they are.
     */
    method DragEnd(activeId: string, overId: string)
      requires Valid()
      modifies this
      ensures Valid()
      ensures columns == Reordered(old(columns), activeId, overId)
      ensures columns.keys == old(columns.keys)
      ensures error == old(error) && searchQuery == old(searchQuery)
    {
      columns := Reordered(columns, activeId, overId);
    }

    /** The search box's `onChange`: only the query changes. */
    method SetQuery(q: string)
      requires Valid()
      modifies this
      ensures Valid()
      ensures searchQuery == q
      ensures columns == old(columns) && error == old(error)
    {
      searchQuery := q;
    }

    /**
     * `filteredColumns`: a fresh object built key by key, in the columns' key
     * order, holding under each key the items whose title matches the query.
     * Nothing of the state changes.
     */
    method Filtered() returns (view: Board)
      requires Valid()
      ensures view == FilterBoard(columns, searchQuery)
      ensures view.keys == columns.keys
    {
      var keys := columns.keys;
      var viewKeys: seq<string> := [];
      var acc: map<string, seq<Item>> := map[];
      var i := 0;
      while i < |keys|
        invariant 0 <= i <= |keys|
        invariant viewKeys == keys[..i]
        invariant forall k :: k in acc <==> k in keys[..i]
        invariant forall k :: k in acc ==> acc[k] == KeepMatching(columns.cols[k], searchQuery)
      {
        var columnKey := keys[i];
        acc := acc[columnKey := KeepMatching(columns.cols[columnKey], searchQuery)];
        viewKeys := viewKeys + [columnKey];
        i := i + 1;
      }
      assert keys[..i] == keys;
      view := Board(viewKeys, acc);
      assert view.cols == FilterBoard(columns, searchQuery).cols;
    }
  }
}

=== FILE: records.dfy ===
/**
 * Record normalisation: every fetched record becomes a board item whose id
 * is its title followed by "-" and its position in the batch, and whose
 * developer text is split on ", ".
 */
module Records {
  import opened Wrappers
  import opened Text

  /** A record as fetched; `status`, `developer` and `type` may be missing. */
  datatype RawRecord = RawRecord(
    title: string,
    status: Option<string>,
    developer: Option<string>,
    kind: Option<string>)

  /** A record with its synthesised id and its developer names split out. */
  datatype Item = Item(
    id: string,
    title: string,
    status: Option<string>,
    developers: seq<string>,
    kind: Option<string>)

  /** What a missing `developer` field throws when `.split` is called on it. */
  const MissingDeveloperError: string := "Cannot read properties of undefined (reading 'split')"

  /** The template `${title}-${index}`. */
  function ItemId(title: string, index: nat): (r: string)
    ensures |r| > |title| + 1 && r[..|title|] == title && r[|title|] == '-'
    ensures forall k :: |title| < k < |r| ==> IsDigit(r[k])
  {
    title + "-" + NatToString(index)
  }

  /** Every record carries a developer field. */
  predicate AllHaveDeveloper(records: seq<RawRecord>)
  {
    forall i :: 0 <= i < |records| ==> records[i].developer.Some?
  }

  /**
   * Item `i` of a successful normalisation, in terms of record `i`, when the
   * first record sits at position `base` of the batch.
   */
  predicate NormalizedAt(records: seq<RawRecord>, items: seq<Item>, i: int, base: nat)
    requires 0 <= i < |records| && i < |items|
  {
    && records[i].developer.Some?
    && items[i].id == ItemId(records[i].title, base + i)
    && items[i].title == records[i].title
    && items[i].status == records[i].status
    && items[i].developers == Split(records[i].developer.value)
    && items[i].kind == records[i].kind
  }

  /**
   * The `map` callback applied to `records`, whose first element sits at
   * position `base` of the batch. The first record without a developer
   * throws, and the whole map throws with it.
   */
  function NormalizeFrom(records: seq<RawRecord>, base: nat): (r: Result<seq<Item>, string>)
    ensures r.Failure? <==> !AllHaveDeveloper(records)
    ensures r.Failure? ==> r.error == MissingDeveloperError
    ensures r.Success? ==> |r.value| == |records|
    ensures r.Success? ==> forall i :: 0 <= i < |records| ==> NormalizedAt(records, r.value, i, base)
    decreases |records|
  {
    if |records| == 0 then Success([])
    else
      var record := records[0];
      match record.developer
      case None => Failure(MissingDeveloperError)
      case Some(developer) =>
        match NormalizeFrom(records[1..], base + 1)
        case Failure(e) =>
          assert !AllHaveDeveloper(records) by {
            var i :| 0 <= i < |records[1..]| && records[1..][i].developer.None?;
            assert records[i + 1].developer.None?;
          }
          Failure(e)
        case Success(rest) =>
          var item := Item(ItemId(record.title, base), record.title, record.status, Split(developer), record.kind);
          var items := [item] + rest;
          assert forall i :: 1 <= i < |records| ==> NormalizedAt(records, items, i, base) by {
            forall i | 1 <= i < |records|
              ensures NormalizedAt(records, items, i, base)
            {
              assert NormalizedAt(records[1..], rest, i - 1, base + 1);
            }
          }
          Success(items)
  }

  /** `res.data.data.map(...)`: the normalisation of the whole batch. */
  function Normalize(records: seq<RawRecord>): (r: Result<seq<Item>, string>)
    ensures r.Failure? <==> exists i :: 0 <= i < |records| && records[i].developer.None?
    ensures r.Failure? ==> r.error == MissingDeveloperError
    ensures r.Success? ==> |r.value| == |records|
  {
    NormalizeFrom(records, 0)
  }

  /** An id ends with "-" followed by the digits of its position. */
  lemma IdShape(s: string, title: string, digits: string)
    requires s == title + "-" + digits
    requires forall k :: 0 <= k < |digits| ==> IsDigit(digits[k])
    ensures s[|s| - |digits| - 1] == '-'
    ensures forall k :: |s| - |digits| <= k < |s| ==> IsDigit(s[k])
    ensures digits == s[|s| - |digits|..]
  {
    forall k | |s| - |digits| <= k < |s|
      ensures IsDigit(s[k])
    {
      assert s[k] == digits[k - (|s| - |digits|)];
    }
  }

  /**
   * Two ids built from different positions differ, whatever the titles: the
   * text after the last "-" is the position, which contains no "-".
   */
  lemma ItemIdsDiffer(t1: string, i: nat, t2: string, j: nat)
    requires i != j
    ensures ItemId(t1, i) != ItemId(t2, j)
  {
    var d1, d2 := NatToString(i), NatToString(j);
    if ItemId(t1, i) == ItemId(t2, j) {
      var s := ItemId(t1, i);
      IdShape(s, t1, d1);
      IdShape(s, t2, d2);
      if |d1| < |d2| {
        // the dash before d1 would be one of the digits of d2
        assert false;
      } else if |d2| < |d1| {
        assert false;
      } else {
        NatToStringInjective(i, j);
      }
    }
  }

  /**
   * A successful normalisation keeps length and order, names item `i`
   * `title-i`, splits its developers on ", ", and gives pairwise distinct ids.
   */
  lemma NormalizeProperties(records: seq<RawRecord>)
    requires Normalize(records).Success?
    ensures |Normalize(records).value| == |records|
    ensures forall i :: 0 <= i < |records| ==>
      && records[i].developer.Some?
      && Normalize(records).value[i].id == records[i].title + "-" + NatToString(i)
      && Normalize(records).value[i].title == records[i].title
      && Normalize(records).value[i].developers == Split(records[i].developer.value)
    ensures forall i, j :: 0 <= i < j < |records| ==>
      Normalize(records).value[i].id != Normalize(records).value[j].id
  {
    var items := Normalize(records).value;
    forall i, j | 0 <= i < j < |records|
      ensures items[i].id != items[j].id
    {
      assert NormalizedAt(records, items, i, 0);
      assert NormalizedAt(records, items, j, 0);
      ItemIdsDiffer(records[i].title, i, records[j].title, j);
    }
    forall i | 0 <= i < |records|
      ensures && records[i].developer.Some?
              && items[i].id == records[i].title + "-" + NatToString(i)
              && items[i].title == records[i].title
              && items[i].developers == Split(records[i].developer.value)
    {
      assert NormalizedAt(records, items, i, 0);
    }
  }
}

=== FILE: reorder.dfy ===
/**
 * The drag-end reorder: find the columns holding the dragged ("active") item
 * and the item it was dropped on ("over"); when both are found in one column,
 * move the active item to the over item's position within that column.
 */
module Reorder {
  import opened Wrappers
  import opened Records
  import opened Columns

  // ---------------------------------------------------------------------
  // arrayMove
  // ---------------------------------------------------------------------

  /**
   * `arrayMove(array, from, to)` of @dnd-kit/sortable: a copy of `s` with the
   * element at `from` removed and re-inserted at index `to`.
   */
  function ArrayMove<T>(s: seq<T>, from: nat, to: nat): (r: seq<T>)
    requires from < |s| && to < |s|
    ensures |r| == |s|
    ensures multiset(r) == multiset(s)
  {
    var rest := s[..from] + s[from + 1..];
    assert s == s[..from] + [s[from]] + s[from + 1..];
    assert rest == rest[..to] + rest[to..];
    assert multiset(rest) + multiset{s[from]} == multiset(s);
    rest[..to] + [s[from]] + rest[to..]
  }

  /**
   * The moved element lands at `to`; the elements from just after `from` up
   * to `to`, or from `to` up to just before `from`, shift by one towards
   * `from`; all others keep their positions.
   */
  lemma ArrayMoveAt<T>(s: seq<T>, from: nat, to: nat)
    requires from < |s| && to < |s|
    ensures ArrayMove(s, from, to)[to] == s[from]
    ensures forall i :: 0 <= i < |s| && i < from && i < to ==> ArrayMove(s, from, to)[i] == s[i]
    ensures forall i :: from < i <= to ==> ArrayMove(s, from, to)[i - 1] == s[i]
    ensures forall i :: to <= i < from ==> ArrayMove(s, from, to)[i + 1] == s[i]
    ensures forall i :: from < i < |s| && to < i ==> ArrayMove(s, from, to)[i] == s[i]
  {
    var rest := s[..from] + s[from + 1..];
    var r := ArrayMove(s, from, to);
    assert r == rest[..to] + [s[from]] + rest[to..];
    assert forall k :: 0 <= k < from ==> rest[k] == s[k];
    assert forall k :: from <= k < |rest| ==> rest[k] == s[k + 1];
  }

  /** Moving an element to where it already is changes nothing. */
  lemma ArrayMoveSame<T>(s: seq<T>, i: nat)
    requires i < |s|
    ensures ArrayMove(s, i, i) == s
  {
    ArrayMoveAt(s, i, i);
  }

  /** Dragging the last of three items onto the first: `[X,Y,Z]` becomes `[Z,X,Y]`. */
  lemma ArrayMoveLastToFront<T>(x: T, y: T, z: T)
    ensures ArrayMove([x, y, z], 2, 0) == [z, x, y]
  {
    ArrayMoveAt([x, y, z], 2, 0);
  }

  /** Moving the element back from `to` to `from` undoes the move. */
  lemma ArrayMoveBack<T>(s: seq<T>, from: nat, to: nat)
    requires from < |s| && to < |s|
    ensures ArrayMove(ArrayMove(s, from, to), to, from) == s
  {
    var r := ArrayMove(s, from, to);
    var u := ArrayMove(r, to, from);
    ArrayMoveAt(s, from, to);
    ArrayMoveAt(r, to, from);
    forall i | 0 <= i < |s|
      ensures u[i] == s[i]
    {
      if i == from {
      } else if from < i <= to {
        assert u[i] == r[i - 1];
      } else if to <= i < from {
        assert u[i] == r[i + 1];
      }
    }
  }

  // ---------------------------------------------------------------------
  // Locating an id
  // ---------------------------------------------------------------------

  /** Some item of `col` has id `id`. */
  predicate HasId(col: seq<Item>, id: string)
  {
    exists j :: 0 <= j < |col| && col[j].id == id
  }

  /** `col.findIndex(item => item.id === id)`: the first index, or -1. */
  function IndexOfId(col: seq<Item>, id: string): (r: int)
    ensures -1 <= r < |col|
    ensures r >= 0 ==> col[r].id == id && forall j :: 0 <= j < r ==> col[j].id != id
    ensures r == -1 <==> !HasId(col, id)
    decreases |col|
  {
    if |col| == 0 then -1
    else if col[0].id == id then 0
    else
      var r := IndexOfId(col[1..], id);
      if r == -1 then -1 else r + 1
  }

  /**
   * The position of the key that `Object.keys(columns).find(...)` returns:
   * the first column, in key order, that holds `id`, or -1 when none does.
   */
  function FirstColumnWith(keys: seq<string>, cols: map<string, seq<Item>>, id: string): (p: int)
    requires forall k :: k in keys ==> k in cols
    ensures -1 <= p < |keys|
    ensures p >= 0 ==> HasId(cols[keys[p]], id) && forall q :: 0 <= q < p ==> !HasId(cols[keys[q]], id)
    ensures p == -1 <==> forall q :: 0 <= q < |keys| ==> !HasId(cols[keys[q]], id)
    decreases |keys|
  {
    if |keys| == 0 then -1
    else if IndexOfId(cols[keys[0]], id) != -1 then 0
    else
      var p := FirstColumnWith(keys[1..], cols, id);
      if p == -1 then -1 else p + 1
  }

  /** `Object.keys(columns).find(...)`: the name of that column, if any. */
  function ColumnOf(b: Board, id: string): (r: Option<string>)
    requires Consistent(b)
    ensures r.Some? <==> exists k :: k in b.keys && HasId(b.cols[k], id)
    ensures r.Some? ==> r.value in b.cols && HasId(b.cols[r.value], id)
    ensures r.Some? ==> exists p :: (0 <= p < |b.keys| && b.keys[p] == r.value
      && forall q :: 0 <= q < p ==> !HasId(b.cols[b.keys[q]], id))
  {
    var p := FirstColumnWith(b.keys, b.cols, id);
    if p == -1 then None else Some(b.keys[p])
  }

  // ---------------------------------------------------------------------
  // handleDragEnd
  // ---------------------------------------------------------------------

  /**
   * The columns after a drop of `activeId` on `overId`. Only a drop between
   * two different items first found in the same (non-empty-named) column
   * changes anything, and then only that column.
   */
  function Reordered(b: Board, activeId: string, overId: string): (r: Board)
    requires Consistent(b)
    ensures Consistent(r) && r.keys == b.keys
    ensures forall k :: k in b.cols ==> k in r.cols && multiset(r.cols[k]) == multiset(b.cols[k])
  {
    if activeId == overId then b
    else
      var activeColumn := ColumnOf(b, activeId);
      var overColumn := ColumnOf(b, overId);
      if activeColumn.Some? && overColumn.Some? && activeColumn.value != "" && activeColumn == overColumn then
        var items := b.cols[activeColumn.value];
        var oldIndex := IndexOfId(items, activeId);
        var newIndex := IndexOfId(items, overId);
        if oldIndex != -1 && newIndex != -1 then
          b.(cols := b.cols[activeColumn.value := ArrayMove(items, oldIndex, newIndex)])
        else b
      else b
  }

  /**
   * A drop leaves the board as it is when the two ids are equal, when either
   * id is in no column, or when they are first found in different columns.
   */
  lemma ReorderedNoOp(b: Board, activeId: string, overId: string)
    requires Consistent(b)
    ensures activeId == overId ==> Reordered(b, activeId, overId) == b
    ensures (forall k :: k in b.keys ==> !HasId(b.cols[k], activeId)) ==> Reordered(b, activeId, overId) == b
    ensures (forall k :: k in b.keys ==> !HasId(b.cols[k], overId)) ==> Reordered(b, activeId, overId) == b
    ensures ColumnOf(b, activeId) != ColumnOf(b, overId) ==> Reordered(b, activeId, overId) == b
  {
    if forall k :: k in b.keys ==> !HasId(b.cols[k], activeId) {
      assert FirstColumnWith(b.keys, b.cols, activeId) == -1;
    }
    if forall k :: k in b.keys ==> !HasId(b.cols[k], overId) {
      assert FirstColumnWith(b.keys, b.cols, overId) == -1;
    }
  }

  /** Both ids sit in `column`, so the drop applies `arrayMove` to it. */
  lemma ReorderedSameColumn(b: Board, activeId: string, overId: string, column: string)
    requires WellFormed(b)
    requires activeId != overId
    requires ColumnOf(b, activeId) == Some(column) && ColumnOf(b, overId) == Some(column)
    ensures column in b.cols && column != ""
    ensures IndexOfId(b.cols[column], activeId) >= 0 && IndexOfId(b.cols[column], overId) >= 0
    ensures Reordered(b, activeId, overId) == b.(cols := b.cols[column :=
      ArrayMove(b.cols[column], IndexOfId(b.cols[column], activeId), IndexOfId(b.cols[column], overId))])
  {
    var p := FirstColumnWith(b.keys, b.cols, activeId);
    assert column == b.keys[p];
  }

  /**
   * A drop between two different items of the same column moves the active
   * item to the over item's index in that column and changes nothing else:
   * same keys, every other column identical, the column a permutation of
   * itself with the same length.
   */
  lemma ReorderedMoves(b: Board, activeId: string, overId: string, column: string)
    requires WellFormed(b)
    requires activeId != overId
    requires ColumnOf(b, activeId) == Some(column) && ColumnOf(b, overId) == Some(column)
    ensures column in b.cols
    ensures
      var items := b.cols[column];
      var oldIndex := IndexOfId(items, activeId);
      var newIndex := IndexOfId(items, overId);
      var r := Reordered(b, activeId, overId);
      && 0 <= oldIndex < |items| && 0 <= newIndex < |items| && oldIndex != newIndex
      && items[oldIndex].id == activeId && items[newIndex].id == overId
      && r.keys == b.keys
      && r.cols[column] == ArrayMove(items, oldIndex, newIndex)
      && r.cols[column][newIndex] == items[oldIndex]
      && |r.cols[column]| == |items|
      && multiset(r.cols[column]) == multiset(items)
      && (forall k :: k in b.cols && k != column ==> r.cols[k] == b.cols[k])
  {
    var items := b.cols[column];
    var oldIndex := IndexOfId(items, activeId);
    var newIndex := IndexOfId(items, overId);
    ReorderedSameColumn(b, activeId, overId, column);
    ArrayMoveAt(items, oldIndex, newIndex);
  }

  /**
   * On a well-formed board a drop changes the columns exactly when the two
   * ids differ and are first found in the same column.
   */
  lemma ReorderedChangesIff(b: Board, activeId: string, overId: string)
    requires WellFormed(b)
    ensures Reordered(b, activeId, overId) != b <==>
      activeId != overId && ColumnOf(b, activeId).Some? && ColumnOf(b, activeId) == ColumnOf(b, overId)
  {
    ReorderedNoOp(b, activeId, overId);
    if activeId != overId && ColumnOf(b, activeId).Some? && ColumnOf(b, activeId) == ColumnOf(b, overId) {
      var column := ColumnOf(b, activeId).value;
      ReorderedMoves(b, activeId, overId, column);
      var items := b.cols[column];
      var newIndex := IndexOfId(items, overId);
      var r := Reordered(b, activeId, overId);
      // the over item's slot now holds the active item, whose id differs
      assert r.cols[column][newIndex].id == activeId != overId == items[newIndex].id;
      assert r.cols[column] != items;
    }
  }
}

=== FILE: search.dfy ===
/**
 * The search filter: a view of the board in which each column keeps only the
 * items whose lower-cased title includes the lower-cased query.
 */
module Search {
  import opened Text
  import opened Records
  import opened Columns

  /** `project.title.toLowerCase().includes(searchQuery.toLowerCase())`. */
  predicate Matches(x: Item, query: string)
    ensures Matches(x, query) ==> |query| <= |x.title|
  {
    Contains(Lower(x.title), Lower(query))
  }

  /** `a` is `b` with some elements left out, the rest in the same order. */
  predicate IsSubsequence(a: seq<Item>, b: seq<Item>)
    decreases |b|
  {
    if |a| == 0 then true
    else if |b| == 0 then false
    else if a[0] == b[0] then IsSubsequence(a[1..], b[1..])
    else IsSubsequence(a, b[1..])
  }

  /**
   * `columns[columnKey].filter(...)`: the matching items of a column. The
   * result is an order-preserving subsequence of the column, and an item is
   * in it exactly when it is in the column and matches.
   */
  function KeepMatching(col: seq<Item>, query: string): (r: seq<Item>)
    ensures IsSubsequence(r, col)
    ensures forall x :: x in r ==> x in col && Matches(x, query)
    ensures forall x :: x in col && Matches(x, query) ==> x in r
    ensures forall x :: multiset(r)[x] == if Matches(x, query) then multiset(col)[x] else 0
    decreases |col|
  {
    if |col| == 0 then []
    else
      var rest := KeepMatching(col[1..], query);
      assert col == [col[0]] + col[1..];
      if Matches(col[0], query) then
        assert ([col[0]] + rest)[1..] == rest;
        [col[0]] + rest
      else rest
  }

  /**
   * The filtered view: the same keys in the same order, each column filtered.
   * It is a new object; the board it is computed from is not touched.
   */
  function FilterBoard(b: Board, query: string): (r: Board)
    requires Consistent(b)
    ensures Consistent(r) && r.keys == b.keys
    ensures forall k :: k in b.cols ==> k in r.cols && r.cols[k] == KeepMatching(b.cols[k], query)
  {
    Board(b.keys, map k | k in b.cols :: KeepMatching(b.cols[k], query))
  }

  /** The empty query matches every title. */
  lemma EmptyQueryMatches(x: Item)
    ensures Matches(x, "")
  {
    assert Lower("") == "";
    ContainsEmpty(Lower(x.title));
  }

  lemma {:induction false} KeepMatchingEmptyQuery(col: seq<Item>)
    ensures KeepMatching(col, "") == col
    decreases |col|
  {
    if |col| > 0 {
      EmptyQueryMatches(col[0]);
      KeepMatchingEmptyQuery(col[1..]);
    }
  }

  /** An empty query shows every column unchanged. */
  lemma FilterEmptyQuery(b: Board)
    requires Consistent(b)
    ensures FilterBoard(b, "") == b
  {
    var r := FilterBoard(b, "");
    forall k | k in b.cols
      ensures r.cols[k] == b.cols[k]
    {
      KeepMatchingEmptyQuery(b.cols[k]);
    }
  }

  lemma {:induction false} KeepMatchingNone(col: seq<Item>, query: string)
    requires forall x :: x in col ==> !Matches(x, query)
    ensures KeepMatching(col, query) == []
    decreases |col|
  {
    if |col| > 0 {
      assert col[0] in col;
      assert forall x :: x in col[1..] ==> x in col;
      KeepMatchingNone(col[1..], query);
    }
  }

  /** A query no title includes leaves every column of the view empty. */
  lemma FilterNoMatch(b: Board, query: string)
    requires Consistent(b)
    requires forall k, x :: k in b.cols && x in b.cols[k] ==> !Matches(x, query)
    ensures forall k :: k in FilterBoard(b, query).cols ==> FilterBoard(b, query).cols[k] == []
  {
    var r := FilterBoard(b, query);
    forall k | k in r.cols
      ensures r.cols[k] == []
    {
      KeepMatchingNone(b.cols[k], query);
    }
  }

  /**
   * The match ignores case: changing the case of any letters of the query or
   * of the title does not change whether the title matches.
   */
  lemma MatchesIgnoresCase(x: Item, x': Item, query: string, query': string)
    requires SameUpToCase(x.title, x'.title) && SameUpToCase(query, query')
    ensures Matches(x, query) <==> Matches(x', query')
  {
    LowerEqualIff(x.title, x'.title);
    LowerEqualIff(query, query');
  }

  /** In particular an upper-cased query matches the same titles. */
  lemma MatchesUpperQuery(x: Item, query: string)
    ensures Matches(x, Upper(query)) <==> Matches(x, query)
  {
    UpperSameUpToCase(query);
    MatchesIgnoresCase(x, x, Upper(query), query);
  }

  /** Case and position do not matter: "bug" finds "Fix Login Bug". */
  lemma MatchIgnoresCase(x: Item)
    requires x.title == "Fix Login Bug"
    ensures Matches(x, "bug")
  {
    var t := Lower(x.title);
    assert t == "fix login bug";
    assert Lower("bug") == "bug";
    assert OccursAt(t, "bug", 10);
  }
}

=== FILE: text.dfy ===
/**
 * The string operations the board relies on: lower-casing (ASCII only),
 * substring search (`includes`), splitting on the separator ", " (`split`)
 * and the decimal rendering of an index inside a template literal.
 */
module Text {

  // ---------------------------------------------------------------------
  // Lower-casing and substring search
  // ---------------------------------------------------------------------

  /** ASCII stand-in for `toLowerCase` on one character. */
  function LowerChar(c: char): char
  {
    if 'A' <= c <= 'Z' then (c as int + 32) as char else c
  }

  /** ASCII stand-in for `String.prototype.toLowerCase`. */
  function Lower(s: string): (r: string)
    ensures |r| == |s|
    ensures forall i :: 0 <= i < |r| ==> !('A' <= r[i] <= 'Z')
    ensures forall i :: 0 <= i < |r| && !('A' <= s[i] <= 'Z') ==> r[i] == s[i]
    ensures forall i :: 0 <= i < |r| && 'A' <= s[i] <= 'Z' ==> r[i] as int == s[i] as int + 32
  {
    seq(|s|, i requires 0 <= i < |s| => LowerChar(s[i]))
  }

  /** ASCII upper-casing, the mirror image of `Lower`. */
  function Upper(s: string): (r: string)
    ensures |r| == |s|
    ensures forall i :: 0 <= i < |r| && 'a' <= s[i] <= 'z' ==> r[i] as int == s[i] as int - 32
    ensures forall i :: 0 <= i < |r| && !('a' <= s[i] <= 'z') ==> r[i] == s[i]
  {
    seq(|s|, i requires 0 <= i < |s| => if 'a' <= s[i] <= 'z' then (s[i] as int - 32) as char else s[i])
  }

  /** `a` and `b` are the same text up to ASCII letter case. */
  predicate SameUpToCase(a: string, b: string)
  {
    |a| == |b| && forall i :: 0 <= i < |a| ==> LowerChar(a[i]) == LowerChar(b[i])
  }

  /** Upper-casing changes only the case of a string. */
  lemma UpperSameUpToCase(s: string)
    ensures SameUpToCase(s, Upper(s))
  {
  }

  /** Texts that differ only in case lower-case to the same string, and conversely. */
  lemma LowerEqualIff(a: string, b: string)
    ensures Lower(a) == Lower(b) <==> SameUpToCase(a, b)
  {
    if Lower(a) == Lower(b) {
      forall i | 0 <= i < |a|
        ensures LowerChar(a[i]) == LowerChar(b[i])
      {
        assert Lower(a)[i] == Lower(b)[i];
      }
    }
  }

  /** Lower-casing twice is lower-casing once. */
  lemma LowerIdempotent(s: string)
    ensures Lower(Lower(s)) == Lower(s)
  {
  }

  /** `t` occurs in `s` starting at index `i`. */
  predicate OccursAt(s: string, t: string, i: int)
  {
    0 <= i && i + |t| <= |s| && s[i..i + |t|] == t
  }

  /** `s.includes(t)`: `t` occurs in `s` at some position. */
  predicate Contains(s: string, t: string)
    ensures Contains(s, t) ==> |t| <= |s|
  {
    exists i :: 0 <= i <= |s| && OccursAt(s, t, i)
  }

  /** Every string includes the empty string. */
  lemma ContainsEmpty(s: string)
    ensures Contains(s, "")
  {
    assert OccursAt(s, "", 0);
  }

  // ---------------------------------------------------------------------
  // `split(', ')` and `join(', ')`, which undoes it
  // ---------------------------------------------------------------------

  /** The two-character separator ", " starts at index `i` of `s`. */
  predicate SeparatorAt(s: string, i: int)
  {
    0 <= i && i + 1 < |s| && s[i] == ',' && s[i + 1] == ' '
  }

  predicate HasSeparator(s: string)
  {
    exists i :: 0 <= i < |s| && SeparatorAt(s, i)
  }

  /**
   * Scans `s` left to right; `current` is the piece read so far. Every
   * leftmost occurrence of ", " ends a piece, as `String.prototype.split`
   * does with a non-empty separator.
   */
  function SplitFrom(s: string, current: string): (pieces: seq<string>)
    ensures |pieces| >= 1
    decreases |s|
  {
    if |s| == 0 then [current]
    else if SeparatorAt(s, 0) then [current] + SplitFrom(s[2..], "")
    else SplitFrom(s[1..], current + [s[0]])
  }

  /** `s.split(', ')`; the empty string gives one empty piece. */
  function Split(s: string): (pieces: seq<string>)
    ensures |pieces| >= 1
  {
    SplitFrom(s, "")
  }

  /** `pieces.join(', ')`. */
  function Join(pieces: seq<string>): string
  {
    if |pieces| == 0 then ""
    else if |pieces| == 1 then pieces[0]
    else pieces[0] + ", " + Join(pieces[1..])
  }

  lemma {:induction false} JoinSplitFrom(s: string, current: string)
    ensures Join(SplitFrom(s, current)) == current + s
    decreases |s|
  {
    if |s| == 0 {
    } else if SeparatorAt(s, 0) {
      var rest := SplitFrom(s[2..], "");
      JoinSplitFrom(s[2..], "");
      assert SplitFrom(s, current) == [current] + rest;
      assert ([current] + rest)[1..] == rest;
      assert s == ", " + s[2..];
    } else {
      JoinSplitFrom(s[1..], current + [s[0]]);
      assert s == [s[0]] + s[1..];
    }
  }

  /** Joining the pieces of a split with the same separator gives back the string. */
  lemma JoinSplit(s: string)
    ensures Join(Split(s)) == s
  {
    JoinSplitFrom(s, "");
  }

  lemma {:induction false} SplitFromPiecesHaveNoSeparator(s: string, current: string)
    requires !HasSeparator(current)
    requires |current| > 0 && current[|current| - 1] == ',' ==> !(|s| > 0 && s[0] == ' ')
    ensures forall p :: p in SplitFrom(s, current) ==> !HasSeparator(p)
    decreases |s|
  {
    if |s| == 0 {
    } else if SeparatorAt(s, 0) {
      SplitFromPiecesHaveNoSeparator(s[2..], "");
    } else {
      var next := current + [s[0]];
      forall i | SeparatorAt(next, i) ensures false {
        if i + 1 < |current| {
          assert SeparatorAt(current, i);
        }
      }
      SplitFromPiecesHaveNoSeparator(s[1..], next);
    }
  }

  /**
   * No piece of a split contains the separator: together with JoinSplit this
   * says `Split` cuts at every occurrence of ", " and nowhere else.
   */
  lemma SplitPiecesHaveNoSeparator(s: string)
    ensures forall p :: p in Split(s) ==> !HasSeparator(p)
  {
    SplitFromPiecesHaveNoSeparator(s, "");
  }

  // ---------------------------------------------------------------------
  // Decimal rendering of a natural number, as in `${index}`
  // ---------------------------------------------------------------------

  predicate IsDigit(c: char)
  {
    '0' <= c <= '9'
  }

  function DigitChar(d: nat): (c: char)
    requires d < 10
    ensures IsDigit(c) && c as int - '0' as int == d
  {
    ('0' as int + d) as char
  }

  /** The decimal digits of `n`, most significant first, with no leading zero. */
  function NatToString(n: nat): (r: string)
    ensures |r| >= 1
    ensures forall i :: 0 <= i < |r| ==> IsDigit(r[i])
    decreases n
  {
    if n < 10 then [DigitChar(n)] else NatToString(n / 10) + [DigitChar(n % 10)]
  }

  /** The number a string of decimal digits denotes. */
  function DigitsValue(s: string): nat
    requires forall i :: 0 <= i < |s| ==> IsDigit(s[i])
    decreases |s|
  {
    if |s| == 0 then 0
    else
      assert IsDigit(s[|s| - 1]);
      10 * DigitsValue(s[..|s| - 1]) + (s[|s| - 1] as int - '0' as int)
  }

  /** Reading the decimal rendering of `n` back gives `n`. */
  lemma {:induction false} DigitsValueOfNatToString(n: nat)
    ensures DigitsValue(NatToString(n)) == n
    decreases n
  {
    var r := NatToString(n);
    if n >= 10 {
      DigitsValueOfNatToString(n / 10);
      assert r[..|r| - 1] == NatToString(n / 10);
    }
  }

  /** Distinct numbers have distinct decimal renderings. */
  lemma NatToStringInjective(a: nat, b: nat)
    requires NatToString(a) == NatToString(b)
    ensures a == b
  {
    DigitsValueOfNatToString(a);
    DigitsValueOfNatToString(b);
  }
}

=== FILE: wrappers.dfy ===
/** Optional values and results with an error message. */
module Wrappers {

  /** A value that may be absent (a missing field, a lookup that finds nothing). */
  datatype Option<+T> = None | Some(value: T)

  /** The outcome of a step that can throw: its value or the thrown message. */
  datatype Result<+T, +E> = Success(value: T) | Failure(error: E)
}
